=== FILE: README.md ===
# Product pages of the admin console, as pure transitions

This project models the decision logic of the three product pages of a small
React admin console for a product catalog (`nombre`, `descripcion`, `precio`,
`imagen`). Each page's hooks become an immutable state record and pure
transition functions. A transition returns the new state together with an
abstract effect: a request to issue (`GET`, `POST`, `PUT`, `DELETE` with its
URL and, for saves, the ordered multipart field list), a navigation, or nothing.

- `api.dfy` (module `Api`): the product record, the JavaScript scalar values a
  form field can hold together with their truthiness, multipart parts, requests,
  effects, and the URLs built from the hard-coded origin `http://localhost:5000`.
- `number_input.dfy` (module `NumberInput`): the price input's part in
  submitting. It covers which strings are numbers, the number each denotes, and
  the `min="0"`/`step="0.01"` constraints.
- `events.dfy` (module `Events`): drives a page through a sequence of events,
  given its step function, and relates each effect to the event that caused it.
- `product_form.dfy` (module `ProductForm`): the create/edit form. It covers the
  mode derived from the route id, hydration in edit mode, field and image edits,
  submit-time validation, choosing the request, assembling the field list, and
  the `submitting` flag. `Step`/`Run` drive the page through any sequence of
  user and network events.
- `product_list.dfy` (module `ProductList`): the list page. It covers loading,
  the delete protocol (confirmation, request, re-fetch), and row rendering,
  including the 50-character description excerpt.
- `dashboard.dfy` (module `Dashboard`): the product count and the five-item
  recent prefix.

Behaviour worth knowing:

- After a successful delete the list re-fetches without setting `loading` back
  to true. The page keeps showing the old table until the new answer arrives
  (`ProductList.RunLoading`).
- Submit validation uses JavaScript truthiness, not "non-empty". A price
  hydrated from the server is a number, so a stored price of `0` blocks an
  unchanged edit form. A typed `"0"` is a non-empty string and passes.
- The form has no `novalidate`, so the browser's constraint validation runs
  before `handleSubmit`. A negative price, a price finer than a cent or a
  non-numeric price never reaches the handler, whether it was typed or copied
  from the server (`ProductForm.Step`, `ProductForm.SubmitPriceExamples`).
- The name is a text input, whose value loses every line break. A stored
  name made only of line breaks is truthy for `handleSubmit`, but the browser
  sees an empty `required` input and stops the submit
  (`ProductForm.LineBreakNameBlocked`). The description is a textarea and
  keeps its line breaks.
- Every failed request is handled by a single `catch`. A 404, a network error
  and an auth error all behave the same, so a response is just `Ok(value)` or
  `Failed`.
- Nothing discards a response that arrives after the page has navigated away.
  The model has no notion of unmounting (see Left out).

## Model

| member | source | states |
|---|---|---|
| ProductForm.ModeOf | src/pages/ProductForm.jsx:101-103 | edit mode holds iff the route id is present and non-empty; in edit mode the id is the route id |
| ProductForm.RunKeepsMode | src/pages/ProductForm.jsx:101-103 | no sequence of events ever changes the mode of a mounted form |
| ProductForm.Mount | src/pages/ProductForm.jsx:105-141 | the mode is the one the route id determines; the form starts empty with no preview and not submitting; it is loading exactly in edit mode, and only edit mode requests `GET /api/products/{id}` |
| ProductForm.Hydrate | src/pages/ProductForm.jsx:120-135 | success copies the server's name, description and numeric price, clears the pending image, sets the preview to the origin plus the image path, ends loading and keeps mode and submitting; failure changes nothing and navigates to `/productos` |
| ProductForm.HandleChange | src/pages/ProductForm.jsx:143-149 | the named field becomes the typed string; the other two fields, the pending image, the preview and the flags are unchanged |
| ProductForm.HandleImageChange | src/pages/ProductForm.jsx:151-158 | no file leaves the state identical; a file becomes the pending image while the text fields, preview and flags stay unchanged |
| ProductForm.HandleSubmit | src/pages/ProductForm.jsx:168-221 | a request is issued iff name, description and price are truthy and (edit mode or an image is pending); otherwise the state is untouched; the request is PUT to the product URL in edit mode and POST to the collection in create mode, and submitting becomes true |
| ProductForm.Payload | src/pages/ProductForm.jsx:188-195 | the field list has 4 entries with a pending image and 3 without; the names are `nombre`, `descripcion`, `precio` in that order, and `imagen` carries the pending file |
| ProductForm.PayloadRoundTrip | src/pages/ProductForm.jsx:188-195 | reading the field list back yields exactly the draft, so every field and the image reach the body unchanged |
| ProductForm.ValidateMatchesPayload | src/pages/ProductForm.jsx:171-195 | validation passes iff the field list it would send is complete: all three fields truthy, plus the image in create mode only |
| ProductForm.HydratedZeroPriceBlocksSubmit | src/pages/ProductForm.jsx:172-175 | after hydrating a product priced 0, submit issues no request, because the numeric 0 is falsy |
| ProductForm.TypedZeroPriceSubmits | src/pages/ProductForm.jsx:172-175 | in edit mode with both texts filled, typing the price "0" lets submit issue its request, because the string "0" is truthy |
| ProductForm.SubmitSettled | src/pages/ProductForm.jsx:222-229 | submitting is false after the request whatever the outcome; fields, mode and preview are kept; only success navigates to `/productos` |
| ProductForm.SubmitRoundTrip | src/pages/ProductForm.jsx:182-229 | a validated submit that fails leaves the form exactly as before the click; one that succeeds differs only by the navigation |
| ProductForm.Step | src/pages/ProductForm.jsx:123-299 | input and Cancel do nothing while the loading message is shown; Cancel otherwise navigates to the list; a submit saves iff the button is enabled, the browser's constraint validation passes and the price is truthy, and a save sets `submitting`; a settled save clears `submitting`, keeps the draft and navigates iff it succeeded; a successful load ends loading; on the rendered form a typed value reaches its field and a picked file becomes the pending image; only a submit saves; the mode never changes |
| ProductForm.TextInputValue | src/pages/ProductForm.jsx:243-250 | the name input's value is the name with every CR and LF removed: never longer, free of line breaks, and empty iff the name is only line breaks |
| ProductForm.TextInputValueOfPlain | src/pages/ProductForm.jsx:243-250 | a name without line breaks is shown unchanged |
| ProductForm.LineBreakNameBlocked | src/pages/ProductForm.jsx:123-250 | a hydrated name of only line breaks is truthy for the handler, yet `required` on the empty text input stops the submit with no effect |
| ProductForm.SubmitPriceExamples | src/pages/ProductForm.jsx:265-275 | on a filled edit form, the prices "-1", "1.005", "" and a hydrated 19.999 are stopped by the browser; a hydrated 0 passes the browser but not the handler; "19.99" is saved by PUT |
| ProductForm.RunSanctioned | src/pages/ProductForm.jsx:168-229 | under any event sequence, every effect is a navigation to `/productos`, a POST of a complete body with an image in create mode, or a PUT of a complete body to the page's own product in edit mode; every saved price satisfies the input's constraints; no event issues a GET or a DELETE |
| ProductForm.InFlightUntilSaved | src/pages/ProductForm.jsx:182-229 | once a save is issued, submitting stays true until a save response arrives |
| ProductForm.NoOverlappingSaves | src/pages/ProductForm.jsx:296 | with the submit button disabled while submitting, a save response always arrives between two saves the page issues |
| ProductList.Init | src/pages/ProductList.jsx:102-119 | the list starts empty and loading and requests `GET /api/products` |
| ProductList.FetchSettled | src/pages/ProductList.jsx:105-115 | success replaces the collection with the server sequence as-is; failure keeps the current collection; loading is false either way |
| ProductList.RunShowsLastListing | src/pages/ProductList.jsx:105-135 | under any event sequence the shown collection is the last successful listing, or the initial collection if there was none; deletes never splice it |
| ProductList.RunLoading | src/pages/ProductList.jsx:103-114 | loading is true iff it started true and no fetch has settled yet; a re-fetch never sets it again |
| ProductList.HandleDelete | src/pages/ProductList.jsx:121-129 | a declined confirmation issues nothing; a confirmed one issues a DELETE whose URL addresses exactly that id; the state is unchanged |
| ProductList.DeleteSettled | src/pages/ProductList.jsx:130-135 | a successful delete triggers a full re-fetch; a failed one issues nothing; the collection is unchanged in both cases |
| ProductList.Step | src/pages/ProductList.jsx:105-143 | only a settled fetch changes the state, and it ends loading; a delete asked while loading or declined issues nothing; a DELETE is issued only for a confirmed delete, to that product's URL; a GET is issued exactly when a delete succeeds |
| ProductList.Excerpt | src/pages/ProductList.jsx:171 | the description cell is the first min(50, n) characters of the description followed by "..." |
| ProductList.ExcerptOfShort | src/pages/ProductList.jsx:171 | a description of at most 50 characters is shown whole and still gets "..." |
| ProductList.ExcerptOfLong | src/pages/ProductList.jsx:171 | characters past the 50th never appear in the cell |
| Api.TableBody | src/pages/ProductList.jsx:161-190 | an empty collection renders one placeholder row; otherwise there is one row per product, in collection order; both pages build their tables this way |
| ProductList.RowTargets | src/pages/ProductList.jsx:162-183 | a product's row has image src = origin + image path, edit link = `/productos/editar/` + id, delete target = id, and the description excerpt |
| ProductList.DeleteTargetsRow | src/pages/ProductList.jsx:177-180 | confirming row i's delete button issues a DELETE for exactly the product that row shows |
| Dashboard.Init | src/pages/Dashboard.jsx:91-119 | the dashboard starts with count 0, no recent products and loading true, and requests `GET /api/products` |
| Dashboard.Recent | src/pages/Dashboard.jsx:108-110 | the recent products are a prefix of the server sequence, of length min(5, n) |
| Dashboard.RecentOfShort | src/pages/Dashboard.jsx:109 | a list of at most 5 products is kept whole, and taking the prefix twice changes nothing |
| Dashboard.FetchSettled | src/pages/Dashboard.jsx:98-116 | success sets the count to the number of products and keeps exactly the first min(5, n) of them in server order; failure keeps count and recent list; loading is false either way |
| Dashboard.CoherentInvariant | src/pages/Dashboard.jsx:91-110 | the recent list always has min(5, count) entries, from the initial state and after every settled fetch |
| Dashboard.FailedFirstLoad | src/pages/Dashboard.jsx:91-115 | a failed first fetch leaves count 0 and no recent products, and loading ends |
| Dashboard.RecentMatchesList | src/pages/Dashboard.jsx:101-110 | given the same server answer, the dashboard's recent products are the list page's first products, in the same order |
| Dashboard.RowsBounded | src/pages/Dashboard.jsx:150-169 | a coherent dashboard renders between 1 and 5 rows, and the placeholder exactly when the count is 0 |
| NumberInput.ParseDigits | src/pages/ProductForm.jsx:265-275 | a run of digits in the price input denotes the natural number it spells |
| NumberInput.ParseNegative | src/pages/ProductForm.jsx:265-275 | a leading minus negates the number the rest denotes; a lone minus is no number |
| NumberInput.ParseFixed | src/pages/ProductForm.jsx:265-275 | digits, a point and digits denote the digits read as one number, divided by ten to the fraction's length |
| NumberInput.BlockedPrices | src/pages/ProductForm.jsx:265-275 | the input blocks an empty price, a typed "-1" and a server price of 19.999 |
| NumberInput.SubCentBlocked | src/pages/ProductForm.jsx:265-275 | `step="0.01"` blocks the typed price "1.005" |
| NumberInput.AcceptedPrices | src/pages/ProductForm.jsx:265-275 | a price of 0, typed or copied from the server, satisfies `min="0"` and `step="0.01"` |
| NumberInput.CentsAccepted | src/pages/ProductForm.jsx:265-275 | the typed price "19.99" is accepted |
| NumberInput.WithinCents | src/pages/ProductForm.jsx:265-275 | every typed price made of digits, a point and one or two digits passes the input |
| NumberInput.FinerThanCents | src/pages/ProductForm.jsx:265-275 | every typed price made of digits, a point and three digits, the last one not 0, is blocked by `step="0.01"` |
| Api.ProductUrl | src/pages/ProductForm.jsx:198-199 | a product's URL is the collection URL, a slash, then the id, so the id can be read back |
| Api.ImageSrc | src/pages/ProductList.jsx:166 | an image src is the origin followed by the server-relative path |
| Api.EditLink | src/pages/ProductList.jsx:174 | the edit link is `/productos/editar/` followed by the id |

## Left out

- HTTP calls, the bearer `Authorization` header read from `localStorage`, and the network meaning of the origin. Requests exist only as `Request` values inside an `Effect`.
- Multipart encoding is left to the browser's `FormData`. Only the ordered field list is modelled, and a numeric price stays a number there, not its string conversion.
- The `FileReader` data-URL preview in `handleImageChange` is asynchronous browser work. `ProductForm.HandleImageChange` therefore leaves `preview` unchanged.
- Price formatting with `toFixed(2)` and date formatting with `toLocaleDateString` are floating-point and locale work. Rows carry the raw price and timestamp.
- Toast notifications and console logging have no effect on state and are not modelled.
- React scheduling and stale closures are not modelled: each handler is one atomic step on the current state.
- Unmounting is not modelled, so a late response is not discarded. `ProductForm.Step` ignores input while the form is not rendered, a submit while the button is disabled or the browser's validation fails, a `Saved` while no save is in flight, and a `Loaded` once loading is over. A failed hydration navigates away but leaves `loading` set, as the page's `catch` does, so a later `Loaded` is still applied even though the page has left. `ProductList.Step` applies every response it is given, so its runs include orders the page cannot produce, such as a `Deleted` with no DELETE in flight. Its run lemmas hold for all of them.
- `window.confirm` becomes a boolean input of `ProductList.HandleDelete`.
- JSON shapes are typed. A non-array list response, missing product fields and a NaN price are not modelled. So is the dashboard case where the count is set but `slice` then throws.
- `substring(0, 50)` counts UTF-16 code units. The model counts characters, so a surrogate pair is never split.
- The form's title and button labels are presentational and are not modelled.
- ProductForm.BrowserAccepts: the file input's own `required` check is taken to agree with the pending image. A browser that clears the input when the file dialog is cancelled, while `imagen` keeps the earlier file, would block a create submit that the model lets through.
- NumberInput.InRange: the `step` test is exact decimal arithmetic. Browsers compute it in binary floating point, which can differ from exact arithmetic on very large or very long numbers. How the browser's localized number widget turns keystrokes into the input's text is not modelled either: a typed string is taken to be the input's value.
- The route table and `ProtectedRoute` (src/App.jsx), the layout and logout (src/components/Layout.jsx), and the not-found page are outside the model. The authentication context is not part of this model.

=== FILE: api.dfy ===
/** Values shared by the three product pages: the product record the REST API
    returns, the JavaScript values a form field can hold, the requests a page
    may issue, and the effects a page transition may ask for. Network calls,
    toasts and the router are not executed here: a transition only names the
    effect it wants. */
module Api {

  datatype Option<+T> = None | Some(value: T)

  /** The outcome of one awaited request. Every page handles all failures of a
      request alike (one `catch` per call), so a failure carries no detail. */
  datatype Response<+T> = Ok(value: T) | Failed

  /** A product as the API returns it: `{ _id, nombre, descripcion, precio,
      imagen, createdAt }`. `imagen` is a server-relative path. */
  datatype Product = Product(
    id: string,
    nombre: string,
    descripcion: string,
    precio: real,
    imagen: string,
    createdAt: string)

  /** A file picked in the browser's file input. Its bytes are opaque here. */
  datatype File = File(name: string, contentType: string, content: seq<int>)

  /** The JavaScript values a text-like form field can hold: a string typed by
      the user, or a number copied from the server's JSON. */
  datatype Scalar = Str(s: string) | Num(n: real) {
    /** JavaScript truthiness: the empty string and the number 0 are falsy. */
    predicate Truthy() {
      match this
      case Str(s) => s != ""
      case Num(n) => n != 0.0
    }
  }

  /** One field of a multipart body, in `FormData.append` order. */
  datatype Part = Part(name: string, value: PartValue)
  datatype PartValue = Plain(v: Scalar) | Upload(f: File)

  datatype Request =
    | Get(url: string)
    | Post(url: string, body: seq<Part>)
    | Put(url: string, body: seq<Part>)
    | Delete(url: string)

  /** What a page transition asks of the outside world. */
  datatype Effect = NoEffect | Send(request: Request) | Navigate(path: string)

  /** The API's hard-coded origin; it prefixes every request and image path. */
  const Origin := "http://localhost:5000"
  const ProductsPath := "/api/products"
  /** The client-side route of the product list. */
  const ListRoute := "/productos"
  /** The client-side route prefix of the edit form. */
  const EditRoutePrefix := "/productos/editar/"

  function ProductsUrl(): string {
    Origin + ProductsPath
  }

  /** The URL of one product: the collection URL, a slash, then the id. */
  function ProductUrl(id: string): (u: string)
    ensures |u| == |ProductsUrl()| + 1 + |id|
    ensures u[..|ProductsUrl()|] == ProductsUrl()
    ensures u[|ProductsUrl()|] == '/'
    ensures u[|ProductsUrl()| + 1..] == id
  {
    ProductsUrl() + "/" + id
  }

  /** Recovers the id from a product URL; the inverse of ProductUrl. */
  function ProductIdOf(u: string): Option<string> {
    var n := |ProductsUrl()|;
    if |u| > n && u[..n] == ProductsUrl() && u[n] == '/' then Some(u[n + 1..]) else None
  }

  lemma ProductUrlRoundTrip(id: string)
    ensures ProductIdOf(ProductUrl(id)) == Some(id)
    ensures ProductUrl(id) != ProductsUrl()
  {
  }

  /** Two different ids never address the same product URL. */
  lemma ProductUrlInjective(a: string, b: string)
    ensures ProductUrl(a) == ProductUrl(b) <==> a == b
  {
  }

  /** An image path is resolved against the API origin by plain concatenation. */
  function ImageSrc(imagen: string): (src: string)
    ensures |src| == |Origin| + |imagen|
    ensures src[..|Origin|] == Origin && src[|Origin|..] == imagen
  {
    Origin + imagen
  }

  /** The client-side route of a product's edit form. */
  function EditLink(id: string): (link: string)
    ensures |link| == |EditRoutePrefix| + |id|
    ensures link[..|EditRoutePrefix|] == EditRoutePrefix && link[|EditRoutePrefix|..] == id
  {
    EditRoutePrefix + id
  }

  /** The placeholder row of an empty product table. */
  const EmptyMessage := "No hay productos disponibles"

  /** A table body: one row per item in order, or a single placeholder row
      when there are no items. */
  function TableBody<T, R>(items: seq<T>, row: T -> R, placeholder: R): (rows: seq<R>)
    ensures items == [] ==> rows == [placeholder]
    ensures items != [] ==> |rows| == |items|
    ensures items != [] ==> forall i :: 0 <= i < |rows| ==> rows[i] == row(items[i])
  {
    if items == [] then [placeholder]
    else seq(|items|, i requires 0 <= i < |items| => row(items[i]))
  }

  function Min(a: int, b: int): int {
    if a <= b then a else b
  }
}

=== FILE: dashboard.dfy ===
/** The dashboard: one list request, from which it shows the product count
    and the first five products in server order. */
module Dashboard {
  import opened Api
  import ProductList

  /** The number of products the recent table shows. */
  const RecentLimit := 5

  datatype DashState = DashState(totalProducts: nat, recent: seq<Product>, loading: bool)

  /** Mounting the page: a zero count, no recent products, loading, and the
      list request. */
  function Init(): (r: (DashState, Effect))
    ensures r.0.totalProducts == 0 && r.0.recent == [] && r.0.loading
    ensures r.1 == Send(Get(ProductsUrl()))
  {
    (DashState(0, [], true), Send(Get(ProductsUrl())))
  }

  /** `products.slice(0, 5)`: the longest prefix of at most five products. */
  function Recent(products: seq<Product>): (r: seq<Product>)
    ensures |r| == Min(RecentLimit, |products|)
    ensures r <= products
  {
    if |products| <= RecentLimit then products else products[..RecentLimit]
  }

  /** Nothing is cut from a short list, and taking the recent products twice
      changes nothing. */
  lemma RecentOfShort(products: seq<Product>)
    ensures |products| <= RecentLimit ==> Recent(products) == products
    ensures Recent(Recent(products)) == Recent(products)
  {
  }

  /** `fetchData` once its request settles: success counts the products and
      keeps the first five; failure keeps what was shown. Loading is over
      either way. */
  function FetchSettled(s: DashState, response: Response<seq<Product>>): (r: DashState)
    ensures !r.loading
    ensures response.Ok? ==> r.totalProducts == |response.value|
    ensures response.Ok? ==> r.recent == response.value[..Min(RecentLimit, |response.value|)]
    ensures response.Failed? ==> r.totalProducts == s.totalProducts && r.recent == s.recent
  {
    match response
    case Ok(products) => DashState(|products|, Recent(products), false)
    case Failed => s.(loading := false)
  }

  /** The recent table holds as many products as the count allows, up to five. */
  predicate Coherent(s: DashState) {
    |s.recent| == Min(RecentLimit, s.totalProducts)
  }

  /** Coherence holds from the start and survives every settled fetch. */
  lemma CoherentInvariant(s: DashState, response: Response<seq<Product>>)
    ensures Coherent(Init().0)
    ensures Coherent(s) ==> Coherent(FetchSettled(s, response))
  {
  }

  /** A failed first load shows a zero count and no recent products. */
  lemma FailedFirstLoad()
    ensures FetchSettled(Init().0, Failed) == DashState(0, [], false)
  {
  }

  /** The dashboard's recent products are the first rows of the product list
      page given the same server answer, in the same order. */
  lemma RecentMatchesList(products: seq<Product>, l: ProductList.ListState, i: nat)
    requires i < |FetchSettled(Init().0, Ok(products)).recent|
    ensures FetchSettled(Init().0, Ok(products)).recent[i]
            == ProductList.FetchSettled(l, Ok(products)).products[i]
  {
  }

  /** One rendered row of the recent table. The price and the creation date
      stay raw: their formatting is not modelled. */
  datatype Row =
    | Placeholder(text: string)
    | ProductRow(key: string, imageSrc: string, alt: string, nombre: string, precio: real, createdAt: string)

  function RowOf(p: Product): Row {
    ProductRow(p.id, ImageSrc(p.imagen), p.nombre, p.nombre, p.precio, p.createdAt)
  }

  /** A single placeholder row when there is nothing recent, else one row per
      recent product in order. */
  function Rows(recent: seq<Product>): seq<Row> {
    TableBody(recent, RowOf, Placeholder(EmptyMessage))
  }

  /** A coherent dashboard never renders more than five rows, and renders the
      placeholder exactly when the count is zero. */
  lemma RowsBounded(s: DashState)
    requires Coherent(s)
    ensures 1 <= |Rows(s.recent)| <= RecentLimit
    ensures Rows(s.recent)[0].Placeholder? <==> s.totalProducts == 0
  {
  }
}

=== FILE: events.dfy ===
/** Driving a page through a sequence of events. A page is given by its step
    function, which maps a state and one event to the next state and the
    effect the event causes. */
module Events {
  import opened Api

  /** Runs the events in order; the i-th effect is the i-th event's. */
  function Run<S, E>(step: (S, E) -> (S, Effect), s: S, es: seq<E>): (r: (S, seq<Effect>))
    ensures |r.1| == |es|
    decreases |es|
  {
    if es == [] then (s, [])
    else
      var prev := Run(step, s, es[..|es| - 1]);
      var next := step(prev.0, es[|es| - 1]);
      (next.0, prev.1 + [next.1])
  }

  /** Running a prefix of the events gives a prefix of the effects. */
  lemma {:induction false} RunPrefix<S, E>(step: (S, E) -> (S, Effect), s: S, es: seq<E>, m: nat)
    requires m <= |es|
    ensures Run(step, s, es[..m]).1 == Run(step, s, es).1[..m]
    decreases |es|
  {
    if m < |es| {
      var init := es[..|es| - 1];
      assert init[..m] == es[..m];
      RunPrefix(step, s, init, m);
    } else {
      assert es[..m] == es;
    }
  }

  /** The j-th effect is the j-th event's, taken in the state the events
      before it produced. */
  lemma EffectAt<S, E>(step: (S, E) -> (S, Effect), s: S, es: seq<E>, j: nat)
    requires j < |es|
    ensures Run(step, s, es).1[j] == step(Run(step, s, es[..j]).0, es[j]).1
  {
    RunPrefix(step, s, es, j + 1);
    assert es[..j + 1][..j] == es[..j];
  }
}

=== FILE: number_input.dfy ===
/** The price field `<input type="number" min="0" step="0.01" required>` as
    far as submitting its form is concerned. A form without `novalidate`
    runs the browser's constraint validation before its submit handler, so a
    price the input rejects stops the submit before any page code runs. This
    module says which strings the input reads as numbers (the valid
    floating-point numbers of section 2.3.4.3 of the HTML Standard), what number
    such a string denotes, and which numbers satisfy `min` and `step`. */
module NumberInput {
  import opened Api

  predicate IsDigit(c: char) {
    '0' <= c <= '9'
  }

  predicate AllDigits(s: string) {
    forall i :: 0 <= i < |s| ==> IsDigit(s[i])
  }

  function DigitValue(c: char): nat {
    if IsDigit(c) then (c as int - '0' as int) else 0
  }

  /** The number a run of decimal digits denotes, most significant first. */
  function DigitsValue(s: string): nat
    decreases |s|
  {
    if s == [] then 0 else DigitsValue(s[..|s| - 1]) * 10 + DigitValue(s[|s| - 1])
  }

  function Pow10(k: nat): (p: nat)
    ensures p >= 1
  {
    if k == 0 then 1 else 10 * Pow10(k - 1)
  }

  /** m times ten to the power e, exactly. */
  function Scale(m: nat, e: int): real {
    if e >= 0 then (m * Pow10(e)) as real else m as real / Pow10(-e) as real
  }

  /** The index of the first occurrence of a or b in s, or |s| when neither
      occurs. */
  function Find(s: string, a: char, b: char): (i: nat)
    ensures i <= |s|
    ensures i < |s| ==> s[i] == a || s[i] == b
    ensures forall j :: 0 <= j < i ==> s[j] != a && s[j] != b
    decreases |s|
  {
    if s == [] || s[0] == a || s[0] == b then 0 else 1 + Find(s[1..], a, b)
  }

  /** The part after `e` or `E`: an optional sign, then one or more digits. */
  function ParseExponent(x: string): Option<int> {
    if x == [] then None
    else if x[0] == '-' || x[0] == '+' then
      var d := x[1..];
      if d != [] && AllDigits(d) then
        Some(if x[0] == '-' then -(DigitsValue(d) as int) else DigitsValue(d))
      else None
    else if AllDigits(x) then Some(DigitsValue(x))
    else None
  }

  /** The part before any exponent: digits, a `.` followed by digits, or
      both. Gives the digits read as one number and the fraction's length. */
  function ParseMantissa(m: string): Option<(nat, nat)> {
    var di := Find(m, '.', '.');
    var whole := m[..di];
    var frac := if di < |m| then m[di + 1..] else "";
    if !AllDigits(whole) || !AllDigits(frac)
       || (di < |m| && frac == "") || (di == |m| && whole == "")
    then None
    else Some((DigitsValue(whole + frac), |frac|))
  }

  /** A number without its sign: a mantissa, then an optional exponent. */
  function ParseUnsigned(body: string): Option<real> {
    var ei := Find(body, 'e', 'E');
    var exp := if ei < |body| then ParseExponent(body[ei + 1..]) else Some(0);
    match ParseMantissa(body[..ei])
    case None => None
    case Some(mf) => if exp.None? then None else Some(Scale(mf.0, exp.value - mf.1))
  }

  /** The number a valid floating-point number denotes: an optional `-`,
      then an unsigned number. Any other string is not a number. */
  function Parse(s: string): Option<real> {
    if |s| > 0 && s[0] == '-' then
      match ParseUnsigned(s[1..])
      case Some(v) => Some(-v)
      case None => None
    else ParseUnsigned(s)
  }

  /** A plain run of digits denotes the natural number it spells. */
  lemma ParseDigits(s: string)
    requires s != [] && AllDigits(s)
    ensures Parse(s) == Some(DigitsValue(s) as real)
  {
    FindAbsent(s, 'e', 'E');
    assert s[..|s|] == s;
    FindAbsent(s, '.', '.');
    assert s + "" == s;
    assert ParseMantissa(s) == Some((DigitsValue(s), 0));
  }

  /** A leading `-` negates whatever the rest denotes, and is no number on
      its own. */
  lemma ParseNegative(s: string)
    requires s == [] || s[0] != '-'
    ensures Parse("-" + s) == (match Parse(s) case Some(v) => Some(-v) case None => None)
  {
    assert ("-" + s)[1..] == s;
  }

  /** `min="0"` and `step="0.01"`: the value is not below 0 and is a whole
      number of hundredths above it. */
  predicate InRange(v: real) {
    v >= 0.0 && (v * 100.0).Floor as real == v * 100.0
  }

  /** The input lets the form submit: it is not empty (`required`), its text
      is a number, and that number satisfies `min` and `step`. A price copied
      from the server is shown as its own number. */
  predicate Satisfied(price: Scalar) {
    match price
    case Str(t) => t != "" && Parse(t).Some? && InRange(Parse(t).value)
    case Num(n) => InRange(n)
  }

  /** Digits, a point and more digits denote the digits read as one number,
      scaled down by the length of the fraction. */
  lemma ParseFixed(whole: string, frac: string)
    requires whole != [] && AllDigits(whole)
    requires frac != [] && AllDigits(frac)
    ensures Parse(whole + "." + frac) == Some(Scale(DigitsValue(whole + frac), -|frac|))
  {
    var s := whole + "." + frac;
    assert s[0] == whole[0];
    FindAbsent(s, 'e', 'E');
    assert s[..|s|] == s;
    FindFirst(s, |whole|);
    assert s[..|whole|] == whole;
    assert s[|whole| + 1..] == frac;
    assert ParseMantissa(s) == Some((DigitsValue(whole + frac), |frac|));
  }

  lemma FindAbsent(s: string, a: char, b: char)
    requires forall j :: 0 <= j < |s| ==> s[j] != a && s[j] != b
    ensures Find(s, a, b) == |s|
  {
  }

  lemma FindFirst(s: string, k: nat)
    requires k < |s| && s[k] == '.'
    requires forall j :: 0 <= j < k ==> IsDigit(s[j])
    ensures Find(s, '.', '.') == k
  {
  }

  /** An empty price, a negative one, and one finer than a cent are blocked,
      whether typed or copied from the server. */
  lemma BlockedPrices()
    ensures !Satisfied(Str(""))
    ensures !Satisfied(Str("-1"))
    ensures !Satisfied(Num(19.999))
  {
    ParseDigits("1");
    ParseNegative("1");
    assert DigitsValue("1") == 1;
  }

  lemma SubCentBlocked()
    ensures !Satisfied(Str("1.005"))
  {
    FinerThanCents("1", "005");
    assert "1" + "." + "005" == "1.005";
  }

  /** Zero, typed or copied, and a whole number of cents are accepted. */
  lemma AcceptedPrices()
    ensures Satisfied(Str("0")) && Satisfied(Num(0.0))
  {
    ParseDigits("0");
    assert DigitsValue("0") == 0;
  }

  /** A typed text passes exactly when it is a number in range. */
  lemma SatisfiedText(t: string, v: real)
    requires Parse(t) == Some(v)
    ensures Satisfied(Str(t)) <==> InRange(v)
  {
  }

  /** Every whole number of cents satisfies `min="0"` and `step="0.01"`. */
  lemma CentsInRange(c: nat)
    ensures InRange(c as real / 100.0)
  {
    assert (c as real / 100.0) * 100.0 == c as real;
  }

  /** A number with one or two decimals is a whole number of cents. */
  lemma CentsScale(n: nat, k: int)
    requires 1 <= k <= 2
    ensures InRange(Scale(n, -k))
  {
    var cents := if k == 1 then n * 10 else n;
    assert Scale(n, -k) == cents as real / 100.0 by {
      assert Pow10(1) == 10 && Pow10(2) == 100;
    }
    CentsInRange(cents);
  }

  /** The last digit of a run of digits is its value modulo ten. */
  lemma LastDigit(s: string)
    requires s != [] && AllDigits(s)
    ensures DigitsValue(s) % 10 == DigitValue(s[|s| - 1])
  {
  }

  /** A natural number not divisible by ten has no whole tenth. */
  lemma TenthNotWhole(n: nat)
    requires n % 10 != 0
    ensures (n as real / 10.0).Floor as real != n as real / 10.0
  {
    var f := (n as real / 10.0).Floor;
    assert f as real <= n as real / 10.0 < f as real + 1.0;
    assert 10 * f <= n < 10 * f + 10;
    assert n / 10 == f;
    assert (f as real) * 10.0 < n as real;
  }

  /** A typed price with at most two decimals lets the form submit. */
  lemma WithinCents(whole: string, frac: string)
    requires whole != [] && AllDigits(whole)
    requires frac != [] && AllDigits(frac) && |frac| <= 2
    ensures Satisfied(Str(whole + "." + frac))
  {
    var n := DigitsValue(whole + frac);
    var v := Scale(n, -|frac|);
    assert Parse(whole + "." + frac) == Some(v) by {
      ParseFixed(whole, frac);
    }
    CentsScale(n, |frac|);
    SatisfiedText(whole + "." + frac, v);
  }

  /** A typed price whose third decimal is not 0 is finer than a cent and
      stops the submit. */
  lemma FinerThanCents(whole: string, frac: string)
    requires whole != [] && AllDigits(whole)
    requires AllDigits(frac) && |frac| == 3 && frac[2] != '0'
    ensures !Satisfied(Str(whole + "." + frac))
  {
    var t := whole + frac;
    var n := DigitsValue(t);
    var v := Scale(n, -3);
    assert Parse(whole + "." + frac) == Some(v) by {
      ParseFixed(whole, frac);
    }
    assert !InRange(v) by {
      assert n % 10 != 0 by {
        assert t[|t| - 1] == frac[2];
        LastDigit(t);
      }
      assert v * 100.0 == n as real / 10.0 by { assert Pow10(3) == 1000; }
      TenthNotWhole(n);
    }
    SatisfiedText(whole + "." + frac, v);
  }

  lemma CentsAccepted()
    ensures Satisfied(Str("19.99"))
  {
    WithinCents("19", "99");
    assert "19" + "." + "99" == "19.99";
  }
}

=== FILE: product_form.dfy ===
/** The create/edit product form. The page's hooks are modelled as pure
    transitions over an immutable FormState; each returns the effect the
    handler would cause (a request, a navigation, or nothing). */
module ProductForm {
  import opened Api
  import Events
  import NumberInput

  /** The mode is fixed from the route parameter when the page is mounted. */
  datatype Mode = Create | Edit(id: string)

  /** `Boolean(id)`: an absent or empty route parameter means create mode. */
  function ModeOf(param: Option<string>): (m: Mode)
    ensures m.Edit? <==> param.Some? && param.value != ""
    ensures m.Edit? ==> m.id == param.value
  {
    if param.Some? && param.value != "" then Edit(param.value) else Create
  }

  /** The form's fields. `precio` holds whatever the last writer put there:
      the server's number after hydration, the typed string after an edit. */
  datatype Draft = Draft(nombre: string, descripcion: string, precio: Scalar, imagen: Option<File>)

  datatype FormState = FormState(
    mode: Mode,
    draft: Draft,
    preview: string,
    loading: bool,
    submitting: bool)

  const EmptyDraft := Draft("", "", Str(""), None)

  /** Mounting the page: loading starts true exactly in edit mode, where the
      product is requested. */
  function Mount(param: Option<string>): (r: (FormState, Effect))
    ensures r.0.mode == ModeOf(param)
    ensures r.0.mode.Edit? <==> param.Some? && param.value != ""
    ensures r.0.draft == EmptyDraft && r.0.preview == "" && !r.0.submitting
    ensures r.0.loading <==> r.0.mode.Edit?
    ensures r.0.mode.Edit? ==> r.1 == Send(Get(ProductUrl(param.value)))
    ensures r.0.mode.Create? ==> r.1 == NoEffect
  {
    var mode := ModeOf(param);
    (FormState(mode, EmptyDraft, "", mode.Edit?, false),
     if mode.Edit? then Send(Get(ProductUrl(mode.id))) else NoEffect)
  }

  /** Result handling of the edit-mode product request. */
  function Hydrate(s: FormState, response: Response<Product>): (r: (FormState, Effect))
    ensures response.Ok? ==>
      var p := response.value;
      && r.0.draft == Draft(p.nombre, p.descripcion, Num(p.precio), None)
      && r.0.preview == Origin + p.imagen
      && !r.0.loading
      && r.0.mode == s.mode && r.0.submitting == s.submitting
      && r.1 == NoEffect
    ensures response.Failed? ==> r.0 == s && r.1 == Navigate(ListRoute)
  {
    match response
    case Ok(p) =>
      (s.(draft := Draft(p.nombre, p.descripcion, Num(p.precio), None),
          preview := ImageSrc(p.imagen),
          loading := false),
       NoEffect)
    case Failed =>
      (s, Navigate(ListRoute))
  }

  /** The three inputs `handleChange` serves, by their `name` attribute. */
  datatype FieldName = Nombre | Descripcion | Precio

  function ValueOf(d: Draft, f: FieldName): Scalar {
    match f
    case Nombre => Str(d.nombre)
    case Descripcion => Str(d.descripcion)
    case Precio => d.precio
  }

  /** `handleChange`: the named field takes the input's string value; every
      other field, the pending image and the rest of the page are unchanged. */
  function HandleChange(s: FormState, f: FieldName, value: string): (r: FormState)
    ensures ValueOf(r.draft, f) == Str(value)
    ensures forall g: FieldName :: g != f ==> ValueOf(r.draft, g) == ValueOf(s.draft, g)
    ensures r.draft.imagen == s.draft.imagen
    ensures r.mode == s.mode && r.preview == s.preview
    ensures r.loading == s.loading && r.submitting == s.submitting
  {
    var d := s.draft;
    var d' := match f
      case Nombre => d.(nombre := value)
      case Descripcion => d.(descripcion := value)
      case Precio => d.(precio := Str(value));
    s.(draft := d')
  }

  /** `handleImageChange`, state part: no file leaves the page unchanged; a
      file becomes the pending image and nothing else changes. */
  function HandleImageChange(s: FormState, file: Option<File>): (r: FormState)
    ensures file.None? ==> r == s
    ensures file.Some? ==> r.draft.imagen == file
    ensures forall g: FieldName :: ValueOf(r.draft, g) == ValueOf(s.draft, g)
    ensures r.mode == s.mode && r.preview == s.preview
    ensures r.loading == s.loading && r.submitting == s.submitting
  {
    if file.Some? then s.(draft := s.draft.(imagen := file)) else s
  }

  datatype Rejection = MissingFields | MissingImage

  /** Submit-time validation, in the source's order: a falsy text field or
      price first, then a missing image in create mode only. */
  function Validate(mode: Mode, d: Draft): Option<Rejection> {
    if !(Str(d.nombre).Truthy() && Str(d.descripcion).Truthy() && d.precio.Truthy()) then
      Some(MissingFields)
    else if mode.Create? && d.imagen.None? then
      Some(MissingImage)
    else
      None
  }

  /** The multipart field list, in `append` order; `imagen` only when a file
      is pending. */
  function Payload(d: Draft): (body: seq<Part>)
    ensures |body| == if d.imagen.Some? then 4 else 3
    ensures body[0].name == "nombre" && body[1].name == "descripcion" && body[2].name == "precio"
    ensures d.imagen.Some? ==> body[3] == Part("imagen", Upload(d.imagen.value))
  {
    [Part("nombre", Plain(Str(d.nombre))),
     Part("descripcion", Plain(Str(d.descripcion))),
     Part("precio", Plain(d.precio))]
    + (if d.imagen.Some? then [Part("imagen", Upload(d.imagen.value))] else [])
  }

  /** Reads a draft back from a field list laid out as Payload lays it out. */
  function DraftOf(body: seq<Part>): Option<Draft> {
    if |body| < 3 || |body| > 4
       || body[0].name != "nombre" || body[1].name != "descripcion" || body[2].name != "precio"
       || !body[0].value.Plain? || !body[0].value.v.Str?
       || !body[1].value.Plain? || !body[1].value.v.Str?
       || !body[2].value.Plain?
    then None
    else if |body| == 3 then
      Some(Draft(body[0].value.v.s, body[1].value.v.s, body[2].value.v, None))
    else if body[3].name == "imagen" && body[3].value.Upload? then
      Some(Draft(body[0].value.v.s, body[1].value.v.s, body[2].value.v, Some(body[3].value.f)))
    else None
  }

  /** The payload carries every field of the draft, and nothing more. */
  lemma PayloadRoundTrip(d: Draft)
    ensures DraftOf(Payload(d)) == Some(d)
  {
  }

  /** A field list fit to send: the three fields in order, all truthy, an
      optional trailing image, and the image present when it is required. */
  predicate Complete(body: seq<Part>, needImage: bool) {
    && 3 <= |body| <= 4
    && body[0].name == "nombre" && body[1].name == "descripcion" && body[2].name == "precio"
    && (forall i :: 0 <= i < 3 ==> body[i].value.Plain? && body[i].value.v.Truthy())
    && (|body| == 4 ==> body[3].name == "imagen" && body[3].value.Upload?)
    && (needImage ==> |body| == 4)
  }

  /** Validation passes exactly when the payload it would send is complete
      for the mode: create mode needs the image, edit mode does not. */
  lemma ValidateMatchesPayload(mode: Mode, d: Draft)
    ensures Validate(mode, d).None? <==> Complete(Payload(d), mode.Create?)
  {
  }

  /** The one request a valid submit issues: PUT to the product in edit
      mode, POST to the collection in create mode. */
  function SaveRequest(mode: Mode, d: Draft): Request {
    match mode
    case Edit(id) => Put(ProductUrl(id), Payload(d))
    case Create => Post(ProductsUrl(), Payload(d))
  }

  /** `handleSubmit` up to the awaited request. */
  function HandleSubmit(s: FormState): (r: (FormState, Effect))
    ensures r.1.Send? <==>
      && s.draft.nombre != "" && s.draft.descripcion != "" && s.draft.precio.Truthy()
      && (s.mode.Edit? || s.draft.imagen.Some?)
    ensures !r.1.Send? ==> r == (s, NoEffect)
    ensures r.1.Send? ==> r.0 == s.(submitting := true)
    ensures r.1.Send? && s.mode.Edit? ==> r.1.request == Put(ProductUrl(s.mode.id), Payload(s.draft))
    ensures r.1.Send? && s.mode.Create? ==> r.1.request == Post(ProductsUrl(), Payload(s.draft))
  {
    if Validate(s.mode, s.draft).Some? then
      (s, NoEffect)
    else
      (s.(submitting := true), Send(SaveRequest(s.mode, s.draft)))
  }

  /** The awaited save request settles: `submitting` is cleared whatever the
      outcome, and only success navigates back to the list. */
  function SubmitSettled(s: FormState, ok: bool): (r: (FormState, Effect))
    ensures !r.0.submitting
    ensures r.0.draft == s.draft && r.0.mode == s.mode && r.0.preview == s.preview && r.0.loading == s.loading
    ensures r.1 == if ok then Navigate(ListRoute) else NoEffect
  {
    (s.(submitting := false), if ok then Navigate(ListRoute) else NoEffect)
  }

  /** A submit that passes validation and then fails restores the page exactly
      as it was: no field is cleared. One that succeeds differs only by the
      navigation back to the list. */
  lemma SubmitRoundTrip(s: FormState)
    requires !s.submitting
    requires HandleSubmit(s).1.Send?
    ensures SubmitSettled(HandleSubmit(s).0, false) == (s, NoEffect)
    ensures SubmitSettled(HandleSubmit(s).0, true) == (s, Navigate(ListRoute))
  {
  }

  /** A price of 0 left over from hydration is falsy, so the unchanged edit
      form of a zero-priced product cannot be saved. */
  lemma HydratedZeroPriceBlocksSubmit(s: FormState, p: Product)
    requires p.precio == 0.0
    ensures HandleSubmit(Hydrate(s, Ok(p)).0).1 == NoEffect
  {
  }

  /** Typing "0" into the price is truthy: with both texts filled, an edit
      form submits. */
  lemma TypedZeroPriceSubmits(s: FormState, id: string)
    requires s.mode == Edit(id)
    requires s.draft.nombre != "" && s.draft.descripcion != ""
    ensures HandleSubmit(HandleChange(s, Precio, "0")).1.Send?
  {
  }

  // ---------------------------------------------------------------------
  // The page as a sequence of events

  /** What reaches the page: user input, and the settling of its requests. */
  datatype Event =
    | Typed(field: FieldName, value: string)
    | Picked(file: Option<File>)
    | Submitted
    | Cancelled
    | Loaded(response: Response<Product>)
    | Saved(ok: bool)

  /** The form is rendered only once loading is over, and its submit button is
      disabled while a save is in flight. */
  predicate SubmitEnabled(s: FormState) {
    !s.loading && !s.submitting
  }

  predicate IsLineBreak(c: char) {
    c == '\r' || c == '\n'
  }

  /** The value a text input holds for a given string: the value sanitization
      of the Text state (section 4.10.5.1.2 of the HTML Standard) strips every
      carriage return and line feed. A textarea keeps its line breaks. */
  function TextInputValue(t: string): (v: string)
    ensures |v| <= |t|
    ensures forall i :: 0 <= i < |v| ==> !IsLineBreak(v[i])
    ensures v == [] <==> forall i :: 0 <= i < |t| ==> IsLineBreak(t[i])
    decreases |t|
  {
    if t == [] then []
    else if IsLineBreak(t[0]) then TextInputValue(t[1..])
    else [t[0]] + TextInputValue(t[1..])
  }

  /** A string without line breaks is its own text-input value. */
  lemma {:induction false} TextInputValueOfPlain(t: string)
    requires forall i :: 0 <= i < |t| ==> !IsLineBreak(t[i])
    ensures TextInputValue(t) == t
    decreases |t|
  {
    if t != [] {
      TextInputValueOfPlain(t[1..]);
    }
  }

  /** The browser's constraint validation of the form, which runs before
      `handleSubmit` because the form has no `novalidate`: the name's input
      value and the description are `required`, the price input must hold a
      number that satisfies `min="0"` and `step="0.01"`, and in create mode
      the file input is `required`. */
  predicate BrowserAccepts(s: FormState) {
    && TextInputValue(s.draft.nombre) != "" && s.draft.descripcion != ""
    && NumberInput.Satisfied(s.draft.precio)
    && (s.mode.Edit? || s.draft.imagen.Some?)
  }

  /** One event. Input reaches the handlers only while the form is rendered;
      a submit reaches `handleSubmit` only through an enabled button and the
      browser's validation; a response is applied only when its request is
      outstanding. */
  function Step(s: FormState, e: Event): (r: (FormState, Effect))
    ensures r.0.mode == s.mode
    ensures s.loading && (e.Typed? || e.Picked? || e.Submitted? || e.Cancelled?) ==> r == (s, NoEffect)
    ensures e.Cancelled? ==> r.0 == s && (r.1 == Navigate(ListRoute) <==> !s.loading)
    ensures e.Submitted? ==>
      (IsSave(r.1) <==> SubmitEnabled(s) && BrowserAccepts(s) && s.draft.precio.Truthy())
    ensures IsSave(r.1) ==> e.Submitted? && r.0.submitting
    ensures e.Saved? && s.submitting ==>
      && !r.0.submitting && r.0.draft == s.draft
      && (r.1 == Navigate(ListRoute) <==> e.ok)
    ensures e.Loaded? && s.loading && s.mode.Edit? && e.response.Ok? ==> !r.0.loading
    ensures !s.loading && e.Typed? ==> ValueOf(r.0.draft, e.field) == Str(e.value)
    ensures !s.loading && e.Picked? && e.file.Some? ==> r.0.draft.imagen == e.file
  {
    match e
    case Loaded(response) =>
      if s.loading && s.mode.Edit? then Hydrate(s, response) else (s, NoEffect)
    case Saved(ok) =>
      if s.submitting then SubmitSettled(s, ok) else (s, NoEffect)
    case Typed(f, v) =>
      if s.loading then (s, NoEffect) else (HandleChange(s, f, v), NoEffect)
    case Picked(file) =>
      if s.loading then (s, NoEffect) else (HandleImageChange(s, file), NoEffect)
    case Submitted =>
      if SubmitEnabled(s) && BrowserAccepts(s) then HandleSubmit(s) else (s, NoEffect)
    case Cancelled =>
      if s.loading then (s, NoEffect) else (s, Navigate(ListRoute))
  }

  /** On an edit form with both texts filled, a negative price, a price
      finer than a cent or an empty price never reaches `handleSubmit`; a
      price of 0 copied from the server passes the browser but not the
      handler's truthiness test; a typed whole number of cents is saved. */
  lemma SubmitPriceExamples(s: FormState, id: string)
    requires s.mode == Edit(id) && SubmitEnabled(s)
    requires TextInputValue(s.draft.nombre) != "" && s.draft.descripcion != ""
    ensures s.draft.precio == Str("-1") ==> Step(s, Submitted) == (s, NoEffect)
    ensures s.draft.precio == Str("1.005") ==> Step(s, Submitted) == (s, NoEffect)
    ensures s.draft.precio == Num(19.999) ==> Step(s, Submitted) == (s, NoEffect)
    ensures s.draft.precio == Str("") ==> Step(s, Submitted) == (s, NoEffect)
    ensures s.draft.precio == Num(0.0) ==> BrowserAccepts(s) && Step(s, Submitted) == (s, NoEffect)
    ensures s.draft.precio == Str("19.99") ==>
      Step(s, Submitted).1 == Send(Put(ProductUrl(id), Payload(s.draft)))
  {
    var p := s.draft.precio;
    if p == Str("-1") || p == Num(19.999) || p == Str("") {
      NumberInput.BlockedPrices();
    } else if p == Str("1.005") {
      NumberInput.SubCentBlocked();
    } else if p == Num(0.0) {
      NumberInput.AcceptedPrices();
    } else if p == Str("19.99") {
      NumberInput.CentsAccepted();
    }
  }

  /** A product whose name is only line breaks hydrates a truthy name that
      `handleSubmit` would accept, but the name's input shows it empty, so
      `required` stops the submit first. */
  lemma LineBreakNameBlocked(s: FormState, p: Product)
    requires s.loading && s.mode.Edit?
    requires p.nombre != [] && forall i :: 0 <= i < |p.nombre| ==> IsLineBreak(p.nombre[i])
    ensures var h := Step(s, Loaded(Ok(p))).0;
      Str(h.draft.nombre).Truthy() && Step(h, Submitted) == (h, NoEffect)
  {
  }

  function Run(s: FormState, es: seq<Event>): (FormState, seq<Effect>) {
    Events.Run(Step, s, es)
  }

  /** The mode never changes for the life of the page. */
  lemma {:induction false} RunKeepsMode(s: FormState, es: seq<Event>)
    ensures Run(s, es).0.mode == s.mode
    decreases |es|
  {
    if es != [] {
      RunKeepsMode(s, es[..|es| - 1]);
    }
  }

  predicate IsSave(e: Effect) {
    e.Send? && (e.request.Post? || e.request.Put?)
  }

  /** The only effects the page's events can have: a save that matches its
      mode and carries a complete field list whose price the input accepts,
      or a navigation to the list. The product request is issued at mount
      only, never by an event. */
  predicate Sanctioned(mode: Mode, e: Effect) {
    match e
    case NoEffect => true
    case Navigate(path) => path == ListRoute
    case Send(Post(url, body)) =>
      mode.Create? && url == ProductsUrl() && Complete(body, true)
      && NumberInput.Satisfied(body[2].value.v)
    case Send(Put(url, body)) =>
      mode.Edit? && url == ProductUrl(mode.id) && Complete(body, false)
      && NumberInput.Satisfied(body[2].value.v)
    case Send(Get(_)) => false
    case Send(Delete(_)) => false
  }

  lemma StepSanctioned(s: FormState, e: Event)
    ensures Sanctioned(s.mode, Step(s, e).1)
  {
  }

  /** Whatever the user does, no incomplete save, no save of a price the
      input rejects, and no request for another product or of another kind is
      ever issued. */
  lemma {:induction false} RunSanctioned(s: FormState, es: seq<Event>)
    ensures forall i :: 0 <= i < |es| ==> Sanctioned(s.mode, Run(s, es).1[i])
    decreases |es|
  {
    if es != [] {
      var init := es[..|es| - 1];
      RunSanctioned(s, init);
      RunKeepsMode(s, init);
      StepSanctioned(Run(s, init).0, es[|es| - 1]);
    }
  }

  /** After a save is issued, `submitting` stays set until a save response
      arrives. */
  lemma {:induction false} InFlightUntilSaved(s: FormState, es: seq<Event>, i: nat, m: nat)
    requires i < m <= |es|
    requires IsSave(Run(s, es).1[i])
    requires forall k :: i < k < m ==> !es[k].Saved?
    ensures Run(s, es[..m]).0.submitting
    decreases m
  {
    assert es[..m][..m - 1] == es[..m - 1];
    if m == i + 1 {
      Events.EffectAt(Step, s, es, i);
    } else {
      InFlightUntilSaved(s, es, i, m - 1);
    }
  }

  /** No double submit: between two saves issued by the page there is always
      a save response that cleared `submitting`. */
  lemma NoOverlappingSaves(s: FormState, es: seq<Event>, i: nat, j: nat)
    requires i < j < |es|
    requires IsSave(Run(s, es).1[i]) && IsSave(Run(s, es).1[j])
    ensures exists k :: i < k < j && es[k].Saved?
  {
    Events.EffectAt(Step, s, es, j);
    if forall k :: i < k < j ==> !es[k].Saved? {
      InFlightUntilSaved(s, es, i, j);
      assert false;
    }
  }
}

=== FILE: product_list.dfy ===
/** The product list page: loads the collection, renders one table row per
    product, and deletes a product behind a confirmation, re-fetching the
    whole collection afterwards. */
module ProductList {
  import opened Api
  import Events

  datatype ListState = ListState(products: seq<Product>, loading: bool)

  /** Mounting the page: an empty collection, loading, and the list request. */
  function Init(): (r: (ListState, Effect))
    ensures r.0.products == [] && r.0.loading
    ensures r.1 == Send(Get(ProductsUrl()))
  {
    (ListState([], true), Send(Get(ProductsUrl())))
  }

  /** `fetchProducts` once its request settles: success replaces the
      collection by the server's sequence as it is; failure keeps the current
      one. Loading is over either way. */
  function FetchSettled(s: ListState, response: Response<seq<Product>>): (r: ListState)
    ensures !r.loading
    ensures response.Ok? ==> r.products == response.value
    ensures response.Failed? ==> r.products == s.products
  {
    match response
    case Ok(products) => ListState(products, false)
    case Failed => s.(loading := false)
  }

  /** `handleDelete` up to the awaited request: a declined confirmation does
      nothing; a confirmed one asks the API to delete that product. */
  function HandleDelete(s: ListState, id: string, confirmed: bool): (r: (ListState, Effect))
    ensures r.0 == s
    ensures !confirmed ==> r.1 == NoEffect
    ensures confirmed ==> r.1.Send? && r.1.request.Delete? && ProductIdOf(r.1.request.url) == Some(id)
  {
    ProductUrlRoundTrip(id);
    (s, if confirmed then Send(Delete(ProductUrl(id))) else NoEffect)
  }

  /** The delete request settles: success re-fetches the whole collection
      (no local splice); failure changes nothing. */
  function DeleteSettled(s: ListState, ok: bool): (r: (ListState, Effect))
    ensures r.0 == s
    ensures ok ==> r.1 == Send(Get(ProductsUrl()))
    ensures !ok ==> r.1 == NoEffect
  {
    (s, if ok then Send(Get(ProductsUrl())) else NoEffect)
  }

  // ---------------------------------------------------------------------
  // Rendering

  /** The description cell shows at most this many characters. */
  const ExcerptLength := 50
  const Ellipsis := "..."

  /** `descripcion.substring(0, 50)` followed by a literal ellipsis, which is
      appended whatever the description's length. */
  function Excerpt(d: string): (r: string)
    ensures |r| == Min(ExcerptLength, |d|) + |Ellipsis|
    ensures forall i :: 0 <= i < |r| - |Ellipsis| ==> r[i] == d[i]
    ensures r[|r| - |Ellipsis|..] == Ellipsis
  {
    d[..Min(ExcerptLength, |d|)] + Ellipsis
  }

  /** A short description is shown whole, and still gets the ellipsis. */
  lemma ExcerptOfShort(d: string)
    requires |d| <= ExcerptLength
    ensures Excerpt(d) == d + Ellipsis
  {
  }

  /** A long description loses everything past its first 50 characters. */
  lemma ExcerptOfLong(d: string, tail: string)
    requires |d| == ExcerptLength
    ensures Excerpt(d + tail) == Excerpt(d) == d + Ellipsis
  {
  }

  /** One rendered table row. The price stays a number: its `toFixed(2)`
      formatting is not modelled. */
  datatype Row =
    | Placeholder(text: string)
    | ProductRow(
        key: string,
        imageSrc: string,
        alt: string,
        nombre: string,
        excerpt: string,
        precio: real,
        editLink: string,
        deleteId: string)

  function RowOf(p: Product): Row {
    ProductRow(p.id, ImageSrc(p.imagen), p.nombre, p.nombre, Excerpt(p.descripcion), p.precio,
               EditLink(p.id), p.id)
  }

  /** The table body: a single placeholder row for an empty collection, else
      one row per product in collection order. */
  function Rows(products: seq<Product>): seq<Row> {
    TableBody(products, RowOf, Placeholder(EmptyMessage))
  }

  /** Each product row points its image, edit link and delete button at the
      product it shows. */
  lemma RowTargets(products: seq<Product>, i: nat)
    requires i < |products|
    ensures Rows(products)[i].ProductRow?
    ensures Rows(products)[i].imageSrc == Origin + products[i].imagen
    ensures Rows(products)[i].editLink == EditRoutePrefix + products[i].id
    ensures Rows(products)[i].deleteId == products[i].id
    ensures Rows(products)[i].excerpt == Excerpt(products[i].descripcion)
  {
  }

  // ---------------------------------------------------------------------
  // The page as a sequence of events

  datatype Event =
    | Listed(response: Response<seq<Product>>)
    | DeleteAsked(id: string, confirmed: bool)
    | Deleted(ok: bool)

  /** One event. Delete buttons exist only once the table is rendered, in
      place of the loading message. Responses are applied as they come. */
  function Step(s: ListState, e: Event): (r: (ListState, Effect))
    ensures !e.Listed? ==> r.0 == s
    ensures e.Listed? ==> r.1 == NoEffect && !r.0.loading
    ensures e.DeleteAsked? && (s.loading || !e.confirmed) ==> r.1 == NoEffect
    ensures r.1.Send? && r.1.request.Delete? ==>
      e.DeleteAsked? && e.confirmed && !s.loading && r.1.request.url == ProductUrl(e.id)
    ensures r.1.Send? && r.1.request.Get? <==> e == Deleted(true)
    ensures r.1 == NoEffect || r.1.Send?
  {
    match e
    case Listed(response) => (FetchSettled(s, response), NoEffect)
    case DeleteAsked(id, confirmed) =>
      if s.loading then (s, NoEffect) else HandleDelete(s, id, confirmed)
    case Deleted(ok) => DeleteSettled(s, ok)
  }

  function Run(s: ListState, es: seq<Event>): (ListState, seq<Effect>) {
    Events.Run(Step, s, es)
  }

  /** The payload of the last successful listing among the events, or the
      collection held before them when there is none. */
  function LastListing(held: seq<Product>, es: seq<Event>): seq<Product>
    decreases |es|
  {
    if es == [] then held
    else
      var e := es[|es| - 1];
      if e.Listed? && e.response.Ok? then e.response.value
      else LastListing(held, es[..|es| - 1])
  }

  /** The page always shows exactly the server's last successful answer:
      deletes, failed deletes and failed fetches never touch the collection. */
  lemma {:induction false} RunShowsLastListing(s: ListState, es: seq<Event>)
    ensures Run(s, es).0.products == LastListing(s.products, es)
    decreases |es|
  {
    if es != [] {
      RunShowsLastListing(s, es[..|es| - 1]);
    }
  }

  /** Loading ends with the first settled fetch and is never set again, not
      even by the re-fetch after a delete. */
  lemma {:induction false} RunLoading(s: ListState, es: seq<Event>)
    ensures Run(s, es).0.loading <==> s.loading && forall i :: 0 <= i < |es| ==> !es[i].Listed?
    decreases |es|
  {
    if es != [] {
      var init := es[..|es| - 1];
      RunLoading(s, init);
      assert forall i :: 0 <= i < |init| ==> init[i] == es[i];
    }
  }

  /** Confirming the delete button of row i asks the API to delete exactly
      the product that row shows. */
  lemma DeleteTargetsRow(s: ListState, i: nat)
    requires !s.loading && i < |s.products|
    ensures Rows(s.products)[i].ProductRow?
    ensures Step(s, DeleteAsked(Rows(s.products)[i].deleteId, true))
            == (s, Send(Delete(ProductUrl(s.products[i].id))))
  {
  }
}
